=== FILE: README.md ===
# raf-schd in Dafny

A model of `raf-schd`, the frame-coalescing scheduler: a factory that wraps a
target function `fn` and returns `wrapperFn` together with `wrapperFn.cancel`.
Every call of the wrapper stores its argument list as `lastArgs`; the first call
of a cycle asks the host for an animation frame, and when the frame fires the
callback clears `frameId` and then calls `fn(...lastArgs)`. `cancel` withdraws
the outstanding request. The result is at most one call of the target per
frame, always with the most recent arguments.

The model is functional. A `RafSchd.Scheduler<T>` record holds the closure's two
variables (`lastArgs`, `frameId`), the host's animation-frame registry and a log
that stands for the target: each call of the target appends the argument list
it received. The three transitions are pure functions, `Call`, `Cancel` and
`Step`, and `Traces` states the coalescing contract as lemmas over sequences of
events.

- `wrappers.dfy`: `Option`, for JavaScript's nullable `?AnimationFrameID`.
- `animation_frames.dfy`: the host facility of the "Animation frames" section of
  the HTML Living Standard. It is an ordered registry of handles plus a callback
  identifier that `requestAnimationFrame` increments before use, so every handle
  is a positive integer never issued before (within the first 2^32 - 1 requests; see
  below).
- `raf_schd.dfy`: the closure state and the three transitions. The frame
  callback is split in two, `ClearFrame` then `InvokeTarget`. `Step` is one host
  frame: it runs the callbacks registered before the frame began, removing each
  handle before running it.
- `traces.dfy`: event sequences and the properties.

Pendingness is tested by JavaScript truthiness (`if (frameId)`), which reads a
handle of 0 as "nothing queued". The model keeps that test literally
(`IsTruthy`). It relies on the host never issuing 0, which the HTML standard
guarantees for the first 2^32 - 1 requests on one document. `Inv` records this
along with "the host holds exactly this instance's handle while one is
recorded". `ZeroHandleReadsAsIdle` shows what a
0 handle would break.

`src/index.js` takes only `fn` (line 9) and has no options; its wrapper returns
nothing (line 13).

## Model

| member | source | states |
|---|---|---|
| AnimationFrames.Request | src/index.js:23 | the host issues a positive handle greater than every handle issued before (it exceeds the old identifier, which bounds every registered handle), advances the identifier to it, and registers it after the existing ones |
| AnimationFrames.Cancel | src/index.js:35 | cancelling removes exactly that handle and keeps every other one; cancelling an unregistered handle changes nothing |
| RafSchd.IsTruthy | src/index.js:18 | the pending test is JavaScript truthiness of `frameId`: null and 0 read as "nothing queued", a positive handle as queued |
| RafSchd.Create | src/index.js:9-11 | a new instance has empty `lastArgs`, no frame queued, the target never called, and satisfies the invariant |
| RafSchd.Call | src/index.js:13-27 | a call replaces `lastArgs` with exactly its arguments and never calls the target; with a frame queued it schedules nothing, otherwise it stores the handle the host's request issues, with the host as that request leaves it; afterwards a frame is queued |
| RafSchd.Cancel | src/index.js:30-37 | cancel leaves nothing queued and withdraws exactly its handle from the host, keeping the identifier and every other handle; with nothing queued it is the identity; it never touches `lastArgs` or the log |
| RafSchd.ClearFrame | src/index.js:24 | the first act of the frame callback leaves the instance idle |
| RafSchd.InvokeTarget | src/index.js:25 | the target is called once, with the stored list, and nothing else changes |
| RafSchd.FrameCallback | src/index.js:23-26 | the frame callback leaves the instance idle and calls the target once with `lastArgs` |
| RafSchd.RunCallbacks | src/index.js:23-26 | running registered callbacks only appends the stored list to the log, at most once per handle, and unregisters the handles it runs |
| RafSchd.Step | test/index.spec.js:22-31 | a frame on a well-formed instance leaves it idle, keeps the host's identifier, and calls the target once with `lastArgs` if a frame was queued, and not at all otherwise |
| Traces.RunPreservesInv | src/index.js:17-20 | after any sequence of calls, cancels and frames, at most one request of the instance is outstanding |
| Traces.TruthinessMatchesRegistration | src/index.js:18 | under the invariant the truthiness test means "a handle is recorded" and "the host holds a request" |
| Traces.CallsNeverInvokeTarget | test/index.spec.js:13-20 | calls alone never call the target; afterwards the last call's list is stored, a frame is queued, and an already queued request is kept |
| Traces.CoalesceToLastCall | src/index.js:13-26 | N >= 1 calls then one frame call the target exactly once, with the last call's list unchanged, including its arity and elements |
| Traces.LatestValueExample | test/index.spec.js:54-67 | calls with 1, 2, 3 and 4 then a frame call the target once, with 4 |
| Traces.ZeroArgumentsForwarded | src/index.js:13-25 | a call with no arguments then a frame calls the target with no arguments |
| Traces.IdleFramesHaveNoEffect | test/index.spec.js:46-51 | any number of frames with nothing queued change nothing |
| Traces.ExtraFramesAfterCycle | test/index.spec.js:33-52 | N >= 1 calls followed by one or more frames call the target exactly once, with the last call's arguments |
| Traces.CancelSuppressesCycle | test/index.spec.js:96-107 | cancel with a frame queued unregisters it, and the next frame does not call the target |
| Traces.CancelIdempotent | src/index.js:30-33 | cancel with nothing queued is the identity, and cancelling twice equals cancelling once |
| Traces.IndistinguishableForever | src/index.js:13-37 | two well-formed states with the same log, the same pendingness and, when pending, the same stored list, make the same target calls under every later sequence of events |
| Traces.CancelledCallsForgotten | src/index.js:30-37 | calls made from an idle instance and then cancelled leave it indistinguishable from never having been called, for every later sequence of events |
| Traces.ReArmAfterCancel | test/index.spec.js:109-127 | after cancelled calls, a new call and a frame call the target exactly once, with the new arguments |
| Traces.ClearBeforeInvoke | src/index.js:23-26 | the handle is cleared before the target runs: a frame is exactly the target's call on the state with the handle cleared and unregistered, in which nothing is queued; a call made from inside the target has the same effect as one made after the frame, and it queues a fresh frame that delivers that call's arguments |
| Traces.LastArgsAreMostRecentCall | src/index.js:14-15 | after any sequence of calls, cancels and frames, the stored list is that of the most recent call in it, or the earlier stored list if it has no call |
| Traces.TargetReceivesSuppliedArgs | src/index.js:15-25 | the log only grows, and every list it gains was passed to some call of the run, or was stored and queued when the run began |
| Traces.AtMostOneTargetCallPerCycle | src/index.js:17-26 | target calls, plus one if a frame is still queued, never exceed wrapper calls, plus one if a frame was queued at the start |
| Traces.ZeroHandleReadsAsIdle | src/index.js:18 | a recorded handle of 0 would read as "nothing queued", and the next call would register a second request |

## Left out

- JavaScript `this` binding and exceptions thrown by `fn` (test/index.spec.js:130-203). The wrapper is a plain forwarding call. The target is a log append, so it neither needs a receiver nor throws.
- The host's callback identifier is unbounded here. The standard's handles are `unsigned long`, and behaviour after 2^32 - 1 requests, where a wrapped handle of 0 would read as idle (`Traces.ZeroHandleReadsAsIdle`), is not modelled.
- The `leading` option and the handle-returning wrapper variant. They are not in `src/index.js`.
- Calls made from inside the target are not events of a trace, because the target is an atomic log append. `Traces.ClearBeforeInvoke` states their effect on the state the target observes.
- Real timing and frame cadence. A frame is an abstract `Step` event.
- The test stub's `flush()`, which repeats frames until none is queued. After one `Step` nothing is queued (`RafSchd.Step`), so it equals `Step`.
- Callbacks other clients register with the same document. The model's registry holds only this instance's handles.
- Flow type annotations, the `any` cast, and the build configuration (`rollup.config.js`).

=== FILE: animation_frames.dfy ===
/**
 The host's animation-frame facility, as described in the "Animation frames"
 section of the HTML Living Standard: a document keeps an ordered map of
 animation frame callbacks keyed by handle, and a callback identifier that
 starts at zero. `requestAnimationFrame` increments the identifier and
 registers the callback under the new value, so every handle it hands out is
 a positive integer never handed out before. The standard's handles are
 `unsigned long`, so that holds for the first 2^32 - 1 requests; the model's
 identifier is unbounded and never wraps. `cancelAnimationFrame` removes
 the entry for a handle, and does nothing if the handle is not registered.

 Every callback registered here belongs to one scheduling wrapper, and all of
 them run the same code, so the model keeps only the handles.
 */
module AnimationFrames {

  datatype Host = Host(lastId: nat, callbacks: seq<nat>)

  /** A document with no registered callbacks, whose identifier is at `lastId`. */
  function Fresh(lastId: nat): (h: Host)
    ensures h.callbacks == []
    ensures WellFormed(h)
  {
    Host(lastId, [])
  }

  /** No handle is registered twice. */
  ghost predicate Distinct(ids: seq<nat>) {
    forall i, j :: 0 <= i < j < |ids| ==> ids[i] != ids[j]
  }

  /** Every registered handle was handed out by `Request` (so it is positive and
      at most the identifier), and no handle is registered twice. */
  ghost predicate WellFormed(h: Host) {
    && (forall i :: 0 <= i < |h.callbacks| ==> 0 < h.callbacks[i] <= h.lastId)
    && Distinct(h.callbacks)
  }

  /** True iff a callback is registered under `id`. */
  predicate IsRegistered(h: Host, id: nat) {
    id in h.callbacks
  }

  /** `requestAnimationFrame`: returns the new host and the handle it issued. */
  function Request(h: Host): (r: (Host, nat))
    ensures r.1 > 0
    ensures r.1 > h.lastId && r.0.lastId == r.1
    ensures r.0.callbacks == h.callbacks + [r.1]
    ensures WellFormed(h) ==> r.1 !in h.callbacks
    ensures WellFormed(h) ==> WellFormed(r.0)
  {
    var id := h.lastId + 1;
    (Host(id, h.callbacks + [id]), id)
  }

  /** The registered handles with `id` taken out, in their original order. */
  function Remove(ids: seq<nat>, id: nat): (r: seq<nat>)
    ensures forall x :: x in r <==> x in ids && x != id
    ensures id !in ids ==> r == ids
    ensures Distinct(ids) ==> Distinct(r)
  {
    if ids == [] then []
    else if ids[0] == id then Remove(ids[1..], id)
    else
      var rest := Remove(ids[1..], id);
      assert Distinct(ids) ==> Distinct(ids[1..]) && ids[0] !in rest by {
        if Distinct(ids) {
          forall i, j | 0 <= i < j < |ids[1..]| ensures ids[1..][i] != ids[1..][j] {
            assert ids[1..][i] == ids[i + 1] && ids[1..][j] == ids[j + 1];
          }
          assert ids[0] !in ids[1..] by {
            forall k | 0 <= k < |ids[1..]| ensures ids[1..][k] != ids[0] {
              assert ids[1..][k] == ids[k + 1];
            }
          }
        }
      }
      [ids[0]] + rest
  }

  /** `cancelAnimationFrame`. */
  function Cancel(h: Host, id: nat): (r: Host)
    ensures r.lastId == h.lastId
    ensures !IsRegistered(r, id)
    ensures forall x :: x != id ==> (IsRegistered(r, x) <==> IsRegistered(h, x))
    ensures !IsRegistered(h, id) ==> r == h
    ensures WellFormed(h) ==> WellFormed(r)
  {
    var r := h.(callbacks := Remove(h.callbacks, id));
    assert forall i :: 0 <= i < |r.callbacks| ==> r.callbacks[i] in h.callbacks;
    r
  }
}

=== FILE: raf_schd.dfy ===
/**
 The frame-coalescing scheduler of src/index.js. One instance closes over two
 variables, the latest argument list and the handle of its outstanding
 animation-frame request (or null); the model keeps both, together with the
 host's animation-frame registry and a log standing for the wrapped target:
 every invocation of the target appends the argument list it received.

 Arguments have an arbitrary type `T`; the target receives the very list the
 last call stored, so equality of lists here is element identity and arity in
 the source.
 */
module RafSchd {
  import opened Wrappers
  import AnimationFrames

  datatype Scheduler<T> = Scheduler(
    lastArgs: seq<T>,
    frameId: Option<nat>,
    host: AnimationFrames.Host,
    log: seq<seq<T>>)

  /** JavaScript truthiness of a `?AnimationFrameID`: null and 0 are falsy. */
  function IsTruthy(id: Option<nat>): (b: bool)
    ensures id == None ==> !b
    ensures id == Some(0) ==> !b
    ensures b <==> id.Some? && id.value > 0
  {
    id.Some? && id.value != 0
  }

  /** What the closure itself takes for "a frame is queued" (`if (frameId)`). */
  predicate Pending<T>(s: Scheduler<T>) {
    IsTruthy(s.frameId)
  }

  /** The well-formedness every reachable state keeps: the host's registry is
      well formed, and it holds exactly the instance's own handle while one is
      recorded, and nothing otherwise. In particular at most one request is
      outstanding, and a recorded handle is positive, so truthiness agrees
      with "a handle is recorded". */
  ghost predicate Inv<T>(s: Scheduler<T>) {
    && AnimationFrames.WellFormed(s.host)
    && match s.frameId
       case None => s.host.callbacks == []
       case Some(id) => id > 0 && s.host.callbacks == [id]
  }

  /** The factory: no arguments yet, nothing scheduled, the target never called.
      `lastId` is wherever the document's callback identifier happens to be. */
  function Create<T>(lastId: nat): (s: Scheduler<T>)
    ensures Inv(s) && !Pending(s)
    ensures s.log == [] && s.lastArgs == []
  {
    Scheduler([], None, AnimationFrames.Fresh(lastId), [])
  }

  /** `wrapperFn(...args)`: remember `args`; request a frame unless one is queued. */
  function Call<T>(s: Scheduler<T>, args: seq<T>): (r: Scheduler<T>)
    ensures r.lastArgs == args
    ensures r.log == s.log
    ensures Pending(r)
    ensures Pending(s) ==> r.frameId == s.frameId && r.host == s.host
    ensures !Pending(s) ==> r.frameId.Some? && r.host.callbacks == s.host.callbacks + [r.frameId.value]
    ensures !Pending(s) && AnimationFrames.WellFormed(s.host) ==> r.frameId.value !in s.host.callbacks
    ensures !Pending(s) ==> (r.host, r.frameId.value) == AnimationFrames.Request(s.host)
    ensures Inv(s) ==> Inv(r)
  {
    var s1 := s.(lastArgs := args);
    if Pending(s) then s1
    else
      var (host, id) := AnimationFrames.Request(s.host);
      s1.(frameId := Some(id), host := host)
  }

  /** `wrapperFn.cancel()`: withdraw the queued request, if there is one. */
  function Cancel<T>(s: Scheduler<T>): (r: Scheduler<T>)
    ensures !Pending(r)
    ensures r.lastArgs == s.lastArgs && r.log == s.log
    ensures !Pending(s) ==> r == s
    ensures Pending(s) ==> !AnimationFrames.IsRegistered(r.host, s.frameId.value)
    ensures Inv(s) ==> Inv(r) && r.host.callbacks == []
    ensures Pending(s) ==> r.host == AnimationFrames.Cancel(s.host, s.frameId.value)
  {
    if !Pending(s) then s
    else s.(host := AnimationFrames.Cancel(s.host, s.frameId.value), frameId := None)
  }

  /** First half of the frame callback: `frameId = null`. */
  function ClearFrame<T>(s: Scheduler<T>): (r: Scheduler<T>)
    ensures !Pending(r)
    ensures r.lastArgs == s.lastArgs && r.log == s.log && r.host == s.host
  {
    s.(frameId := None)
  }

  /** Second half of the frame callback: `fn(...lastArgs)`. */
  function InvokeTarget<T>(s: Scheduler<T>): (r: Scheduler<T>)
    ensures |r.log| == |s.log| + 1 && r.log[..|s.log|] == s.log
    ensures r.log[|s.log|] == s.lastArgs
    ensures r.lastArgs == s.lastArgs && r.frameId == s.frameId && r.host == s.host
  {
    s.(log := s.log + [s.lastArgs])
  }

  /** The callback registered with the host: clear the handle, then call the target. */
  function FrameCallback<T>(s: Scheduler<T>): (r: Scheduler<T>)
    ensures !Pending(r)
    ensures r.log == s.log + [s.lastArgs]
    ensures r.lastArgs == s.lastArgs && r.host == s.host
  {
    InvokeTarget(ClearFrame(s))
  }

  /** The host running the callbacks whose handles are in `ids`, in order; a
      handle cancelled meanwhile is skipped, and each one run is first taken
      out of the registry. Every callback in the registry is this instance's,
      so each run appends the current argument list to the log. */
  function RunCallbacks<T>(s: Scheduler<T>, ids: seq<nat>): (r: Scheduler<T>)
    ensures r.lastArgs == s.lastArgs
    ensures r.host.lastId == s.host.lastId
    ensures |s.log| <= |r.log| <= |s.log| + |ids| && r.log[..|s.log|] == s.log
    ensures forall i :: |s.log| <= i < |r.log| ==> r.log[i] == s.lastArgs
    ensures forall x :: x in r.host.callbacks ==> x in s.host.callbacks && x !in ids
    ensures AnimationFrames.WellFormed(s.host) ==> AnimationFrames.WellFormed(r.host)
    ensures (forall x :: x in ids ==> x !in s.host.callbacks) ==> r == s
    decreases |ids|
  {
    if ids == [] then s
    else
      var id := ids[0];
      var s1 :=
        if AnimationFrames.IsRegistered(s.host, id)
        then FrameCallback(s.(host := AnimationFrames.Cancel(s.host, id)))
        else s;
      RunCallbacks(s1, ids[1..])
  }

  /** One animation frame, as the test stub's `step()` runs it: the callbacks
      registered before the frame starts, and none registered during it. */
  function Step<T>(s: Scheduler<T>): (r: Scheduler<T>)
    ensures r.lastArgs == s.lastArgs
    ensures r.host.lastId == s.host.lastId
    ensures Inv(s) ==> Inv(r) && !Pending(r) && r.host.callbacks == []
    ensures Inv(s) ==> r.log == s.log + (if Pending(s) then [s.lastArgs] else [])
  {
    var r := RunCallbacks(s, s.host.callbacks);
    assert Inv(s) && Pending(s) ==> r.log == s.log + [s.lastArgs] by {
      if Inv(s) && Pending(s) {
        assert |r.log| == |s.log| + 1;
        assert r.log == r.log[..|s.log|] + [r.log[|s.log|]];
      }
    }
    r
  }
}

=== FILE: traces.dfy ===
/**
 Sequences of the three things that can happen to one scheduling wrapper: a
 call of the wrapper, a call of its `cancel`, and an animation frame. The
 lemmas here state the coalescing contract of src/index.js over such
 sequences, in terms of the target's call log.
 */
module Traces {
  import opened Wrappers
  import AnimationFrames
  import opened RafSchd

  datatype Event<T> = WrapperCall(args: seq<T>) | CancelCall | AnimationFrame

  function Apply<T>(s: Scheduler<T>, e: Event<T>): (r: Scheduler<T>) {
    match e
    case WrapperCall(args) => Call(s, args)
    case CancelCall => Cancel(s)
    case AnimationFrame => Step(s)
  }

  /** The state after the events of `evs`, first to last. */
  function Run<T>(s: Scheduler<T>, evs: seq<Event<T>>): (r: Scheduler<T>)
    decreases |evs|
  {
    if evs == [] then s else Run(Apply(s, evs[0]), evs[1..])
  }

  /** One wrapper call per argument list, in order. */
  function Calls<T>(argLists: seq<seq<T>>): (evs: seq<Event<T>>)
    ensures |evs| == |argLists|
    ensures forall i :: 0 <= i < |evs| ==> evs[i] == WrapperCall(argLists[i])
  {
    seq(|argLists|, i requires 0 <= i < |argLists| => WrapperCall(argLists[i]))
  }

  /** `n` animation frames in a row. */
  function Frames<T>(n: nat): (evs: seq<Event<T>>)
    ensures |evs| == n
    ensures forall i :: 0 <= i < n ==> evs[i] == AnimationFrame
  {
    seq(n, i => AnimationFrame)
  }

  /** Number of wrapper calls in `evs`. */
  function CountCalls<T>(evs: seq<Event<T>>): (n: nat)
    decreases |evs|
  {
    if evs == [] then 0 else (if evs[0].WrapperCall? then 1 else 0) + CountCalls(evs[1..])
  }

  /** The arguments of the last wrapper call in `evs`, or `initial` if it has none. */
  function LastCallArgs<T>(evs: seq<Event<T>>, initial: seq<T>): (a: seq<T>)
    ensures a == initial || WrapperCall(a) in evs
    decreases |evs|
  {
    if evs == [] then initial
    else
      var rest := LastCallArgs(evs[1..], if evs[0].WrapperCall? then evs[0].args else initial);
      assert forall e :: e in evs[1..] ==> e in evs;
      rest
  }

  /** Whatever happens in between, the stored list is always the most recent
      call's: a frame that fires delivers that list and no older one. */
  lemma {:induction false} LastArgsAreMostRecentCall<T>(s: Scheduler<T>, evs: seq<Event<T>>)
    ensures Run(s, evs).lastArgs == LastCallArgs(evs, s.lastArgs)
    decreases |evs|
  {
    if evs != [] {
      LastArgsAreMostRecentCall(Apply(s, evs[0]), evs[1..]);
    }
  }

  /** Every event keeps the state well formed, so at any time at most one
      animation-frame request of the instance is outstanding. */
  lemma {:induction false} RunPreservesInv<T>(s: Scheduler<T>, evs: seq<Event<T>>)
    requires Inv(s)
    ensures Inv(Run(s, evs))
    ensures |Run(s, evs).host.callbacks| <= 1
    decreases |evs|
  {
    if evs != [] {
      RunPreservesInv(Apply(s, evs[0]), evs[1..]);
    }
  }

  /** With the well-formedness, the closure's truthiness test is exactly "a
      handle is recorded", and that is exactly "the host holds a request". */
  lemma TruthinessMatchesRegistration<T>(s: Scheduler<T>)
    requires Inv(s)
    ensures Pending(s) <==> s.frameId.Some?
    ensures Pending(s) <==> s.host.callbacks != []
  {
  }

  /** A run of wrapper calls never calls the target; afterwards the latest
      list is stored and a frame is queued, the same one if one already was. */
  lemma {:induction false} CallsNeverInvokeTarget<T>(s: Scheduler<T>, argLists: seq<seq<T>>)
    requires Inv(s)
    requires argLists != []
    ensures Run(s, Calls(argLists)).log == s.log
    ensures Run(s, Calls(argLists)).lastArgs == argLists[|argLists| - 1]
    ensures Pending(Run(s, Calls(argLists))) && Inv(Run(s, Calls(argLists)))
    ensures Pending(s) ==> Run(s, Calls(argLists)).host == s.host
    decreases |argLists|
  {
    var evs := Calls(argLists);
    var s1 := Call(s, argLists[0]);
    assert evs[1..] == Calls(argLists[1..]);
    if |argLists| > 1 {
      CallsNeverInvokeTarget(s1, argLists[1..]);
    }
  }

  /** N >= 1 calls then one frame: the target is called exactly once, with
      the argument list of the last call, and the instance is idle again. */
  lemma CoalesceToLastCall<T>(s: Scheduler<T>, argLists: seq<seq<T>>)
    requires Inv(s)
    requires argLists != []
    ensures Step(Run(s, Calls(argLists))).log == s.log + [argLists[|argLists| - 1]]
    ensures !Pending(Step(Run(s, Calls(argLists))))
  {
    CallsNeverInvokeTarget(s, argLists);
  }

  /** The four-call example: calls with (1), (2), (3), (4), then a frame,
      call the target once with (4). */
  lemma LatestValueExample(s: Scheduler<int>)
    requires Inv(s) && s.log == []
    ensures Step(Run(s, [WrapperCall([1]), WrapperCall([2]), WrapperCall([3]), WrapperCall([4])])).log == [[4]]
  {
    assert [WrapperCall([1]), WrapperCall([2]), WrapperCall([3]), WrapperCall([4])] == Calls([[1], [2], [3], [4]]);
    CoalesceToLastCall(s, [[1], [2], [3], [4]]);
  }

  /** A call with no arguments then a frame calls the target with none. */
  lemma ZeroArgumentsForwarded<T>(s: Scheduler<T>)
    requires Inv(s)
    ensures Step(Call(s, [])).log == s.log + [[]]
  {
  }

  /** A frame with nothing queued changes nothing, and so do any number of them. */
  lemma {:induction false} IdleFramesHaveNoEffect<T>(s: Scheduler<T>, n: nat)
    requires Inv(s) && !Pending(s)
    ensures Step(s) == s
    ensures Run(s, Frames(n)) == s
    decreases n
  {
    if n > 0 {
      assert Frames<T>(n)[1..] == Frames(n - 1);
      IdleFramesHaveNoEffect(s, n - 1);
    }
  }

  /** N >= 1 calls, then one or more frames: the target was called exactly
      once, with the last call's arguments. */
  lemma ExtraFramesAfterCycle<T>(s: Scheduler<T>, argLists: seq<seq<T>>, n: nat)
    requires Inv(s) && argLists != []
    ensures Run(Step(Run(s, Calls(argLists))), Frames(n)).log == s.log + [argLists[|argLists| - 1]]
  {
    CallsNeverInvokeTarget(s, argLists);
    IdleFramesHaveNoEffect(Step(Run(s, Calls(argLists))), n);
  }

  /** Cancelling while a frame is queued withdraws the request from the host
      and the next frame does not call the target. */
  lemma CancelSuppressesCycle<T>(s: Scheduler<T>)
    requires Inv(s)
    ensures Cancel(s).host.callbacks == []
    ensures Step(Cancel(s)).log == s.log
    ensures Step(Cancel(s)) == Cancel(s)
  {
  }

  /** Cancelling with nothing queued touches neither the host nor the log, and
      cancelling twice is cancelling once. */
  lemma CancelIdempotent<T>(s: Scheduler<T>)
    ensures !Pending(s) ==> Cancel(s) == s
    ensures Cancel(Cancel(s)) == Cancel(s)
  {
  }

  /** What the rest of a run can observe of a state: the log, whether a frame
      is queued, and, when one is, the list it will deliver. The stored list of
      an idle instance is overwritten before it is read again. */
  ghost predicate Indistinguishable<T>(a: Scheduler<T>, b: Scheduler<T>) {
    && a.log == b.log
    && Pending(a) == Pending(b)
    && (Pending(a) ==> a.lastArgs == b.lastArgs)
  }

  /** Indistinguishable well-formed states stay so under every run of events:
      they produce the same target calls from then on. */
  lemma {:induction false} IndistinguishableForever<T>(a: Scheduler<T>, b: Scheduler<T>, evs: seq<Event<T>>)
    requires Inv(a) && Inv(b) && Indistinguishable(a, b)
    ensures Indistinguishable(Run(a, evs), Run(b, evs))
    ensures Run(a, evs).log == Run(b, evs).log
    decreases |evs|
  {
    if evs != [] {
      IndistinguishableForever(Apply(a, evs[0]), Apply(b, evs[0]), evs[1..]);
    }
  }

  /** After calls that were then cancelled, the instance behaves exactly as if
      those calls had never happened: for every later run of events, the
      target is called the same way. */
  lemma CancelledCallsForgotten<T>(s: Scheduler<T>, argLists: seq<seq<T>>, later: seq<Event<T>>)
    requires Inv(s) && !Pending(s)
    ensures Indistinguishable(Cancel(Run(s, Calls(argLists))), s)
    ensures Run(Cancel(Run(s, Calls(argLists))), later).log == Run(s, later).log
  {
    var c := Run(s, Calls(argLists));
    if argLists != [] {
      CallsNeverInvokeTarget(s, argLists);
    } else {
      assert c == s;
    }
    RunPreservesInv(s, Calls(argLists));
    IndistinguishableForever(Cancel(c), s, later);
  }

  /** Calls, cancel, then a new call and a frame: the target is called exactly
      once, with the new arguments. */
  lemma ReArmAfterCancel<T>(s: Scheduler<T>, argLists: seq<seq<T>>, args: seq<T>)
    requires Inv(s) && !Pending(s)
    ensures Step(Call(Cancel(Run(s, Calls(argLists))), args)).log == s.log + [args]
  {
    var c := Cancel(Run(s, Calls(argLists)));
    RunPreservesInv(s, Calls(argLists));
    CancelledCallsForgotten(s, argLists, []);
    assert Inv(c) && c.log == s.log;
  }

  /** The frame callback clears the handle before calling the target: the
      frame is the target's call on the cleared state, so whatever the target
      does next starts from an idle instance. A call made from inside the
      target (or any time later) requests a fresh frame, whose firing calls
      the target with that call's arguments. */
  lemma ClearBeforeInvoke<T>(s: Scheduler<T>, args: seq<T>)
    requires Inv(s) && Pending(s)
    ensures var during := ClearFrame(s.(host := AnimationFrames.Cancel(s.host, s.frameId.value)));
      && !Pending(during)
      && InvokeTarget(during) == Step(s)
      && Call(InvokeTarget(during), args) == Call(Step(s), args)
    ensures Step(s) == FrameCallback(s.(host := AnimationFrames.Fresh(s.host.lastId)))
    ensures Pending(Call(Step(s), args))
    ensures Step(Call(Step(s), args)).log == s.log + [s.lastArgs, args]
  {
  }

  /** The target only ever receives an argument list some call supplied:
      every entry a run adds to the log is the list stored when it began
      (when a frame was then queued) or the arguments of one of its calls. */
  lemma {:induction false} TargetReceivesSuppliedArgs<T>(s: Scheduler<T>, evs: seq<Event<T>>)
    requires Inv(s)
    ensures var r := Run(s, evs);
      && |s.log| <= |r.log| && r.log[..|s.log|] == s.log
      && forall i :: |s.log| <= i < |r.log| ==>
           (Pending(s) && r.log[i] == s.lastArgs) || WrapperCall(r.log[i]) in evs
    ensures Pending(Run(s, evs)) ==>
      (Pending(s) && Run(s, evs).lastArgs == s.lastArgs) || WrapperCall(Run(s, evs).lastArgs) in evs
    decreases |evs|
  {
    if evs != [] {
      var s1 := Apply(s, evs[0]);
      var r := Run(s, evs);
      TargetReceivesSuppliedArgs(s1, evs[1..]);
      assert r == Run(s1, evs[1..]);
      assert |s1.log| <= |s.log| + 1 && s1.log[..|s.log|] == s.log;
      assert forall i :: |s.log| <= i < |s1.log| ==> Pending(s) && s1.log[i] == s.lastArgs;
      assert Pending(s1) ==> (Pending(s) && s1.lastArgs == s.lastArgs) || evs[0] == WrapperCall(s1.lastArgs);
      assert forall e :: e in evs[1..] ==> e in evs;
      forall i | |s.log| <= i < |r.log|
        ensures (Pending(s) && r.log[i] == s.lastArgs) || WrapperCall(r.log[i]) in evs
      {
        if i < |s1.log| {
          assert r.log[i] == r.log[..|s1.log|][i] == s1.log[i];
        }
      }
    }
  }

  /** Each target call ends one cycle, and each cycle is started by a call:
      the target calls of a run, plus one if a frame is still queued at its
      end, never exceed its wrapper calls plus one if a frame was queued at
      its start. */
  lemma {:induction false} AtMostOneTargetCallPerCycle<T>(s: Scheduler<T>, evs: seq<Event<T>>)
    requires Inv(s)
    ensures var r := Run(s, evs);
      |r.log| - |s.log| + (if Pending(r) then 1 else 0) <= CountCalls(evs) + (if Pending(s) then 1 else 0)
    decreases |evs|
  {
    if evs != [] {
      AtMostOneTargetCallPerCycle(Apply(s, evs[0]), evs[1..]);
    }
  }

  /** Why the handles must be positive: a handle of 0 would read as "nothing
      queued", and the next call would register a second request. */
  lemma ZeroHandleReadsAsIdle<T>(args: seq<T>)
    ensures var s := Scheduler([], Some(0), AnimationFrames.Host(0, [0]), []);
      !Pending(s) && |Call(s, args).host.callbacks| == 2
  {
  }
}

=== FILE: wrappers.dfy ===
/** The optional value used for JavaScript's `?T` (a value or `null`). */
module Wrappers {

  datatype Option<+T> = None | Some(value: T)
}
